=== FILE: README.md ===
# Student API: configuration resolution and the student record store

This project is a Dafny model of the core of a small FastAPI service that keeps student
records in PostgreSQL. It covers two parts:

- **Configuration resolution** (`app/database.py`). `load_database_config` reads five
  `DATABASE_*` variables from the environment. It applies the defaults `db`, `denemedb`
  and `5432`. It refuses the configuration when the user or the password is unset, and it
  converts the port to an integer, falling back to 5432 when the text is not an integer.
  The result is computed once, when the module is imported. `get_database_config` hands
  out a copy of it.
- **The `students` table and its handlers** (`app/myapi.py`). The table is held in memory
  as a map from id to row, plus the next value of the `SERIAL` sequence. The handlers
  modelled are:
  - the startup seeding of John and Jane into an empty table;
  - listing all students in id order;
  - fetching a student by id;
  - the `ILIKE '%name%'` search;
  - insert, update and delete.

  `update_student` builds its `UPDATE` statement from the fields the request supplies.
  The model builds the same `SET` clauses and parameter list. It also interprets the
  statement, and proves that running it overwrites exactly the supplied fields of that
  row.

The PostgreSQL behaviour the handlers rely on is written out, not assumed:

- `INTEGER` parameters are int4, and a value outside that range is an error (HTTP 500).
- A `VARCHAR(n)` value longer than `n` is an error, unless the excess is all spaces, in
  which case it is cut.
- `SERIAL` ids are positive, never reused, and end at the int4 maximum.
- `ILIKE` supports `%`, `_` and the `\` escape, and ignores ASCII case.

Modules:

| file | module | what it holds |
|---|---|---|
| `wrappers.dfy` | `Wrappers` | `Option` |
| `decimal.dfy` | `Decimal` | Python's `int(str)` on decimal literals and `"%d"` rendering |
| `database.dfy` | `Database` | the environment, `load_database_config`, the module-level `DB_CONFIG` and `get_database_config` |
| `sql.dfy` | `Sql` | int4, `VARCHAR(n)` storage and `LIKE`/`ILIKE` matching |
| `models.dfy` | `Models` | the Pydantic records, the HTTP outcome kinds and the table's column limits |
| `update_query.dfy` | `UpdateQuery` | the `update_student` statement builder, an interpreter for the statement it builds, and their agreement |
| `myapi.dfy` | `MyApi` | the `StudentTable` class with one member per handler, and scenarios chaining them |

### Behaviour of the code worth knowing

- **Only the `DATABASE_*` variables.** `load_database_config` reads exactly `DATABASE_HOST`,
  `DATABASE_NAME`, `DATABASE_USER`, `DATABASE_PASSWORD` and `DATABASE_PORT`, with no other
  variable names as fallbacks (app/database.py:13-19).
- **Missing-variable keys.** The list in the error holds the `config` dictionary's keys
  whose value is `None`, which are `user` and `password` in that order, not variable names
  (app/database.py:22). The message's fixed second sentence always names both
  `DATABASE_USER` and `DATABASE_PASSWORD`, whichever is missing (app/database.py:26).
- **Empty credentials.** A credential set to the empty string is not `None`, so it is
  accepted (app/database.py:22).
- **No port range check.** Whatever `int()` accepts is kept, including 0, negative values
  and `+5`. Only text that `int()` refuses falls back to 5432 (app/database.py:30-35).
- **Search order.** The search query has no `ORDER BY` (app/myapi.py:123). The model
  states which rows the search returns, each once, but not their order.
- **Backslash in a search.** The search text goes into the `ILIKE` pattern unescaped
  (app/myapi.py:123). A `\` in it escapes the next character, so searching `a\b` finds
  "ab" and not "a\b". `%` and `_` act as wildcards.

## Model

| member | source | states |
|---|---|---|
| Decimal.ParseInt | fastapiexercise/myproject/app/database.py:30-35 | `int(text)` succeeds exactly on an optional sign followed by at least one and at most 4300 digits (Python's default digit limit); a negative result comes only from a leading `-` |
| Decimal.ShowNat | fastapiexercise/myproject/app/myapi.py:155 | `"%d"` of a natural number is a non-empty digit string with no leading zero |
| Decimal.DigitsValueOfShowNat | fastapiexercise/myproject/app/myapi.py:155 | reading back the digits `"%d"` writes gives the number again |
| Decimal.ParseShowInt | fastapiexercise/myproject/app/database.py:32 | `int` of the decimal rendering of any integer of at most 4300 digits is that integer (round trip) |
| Database.MissingKeys | fastapiexercise/myproject/app/database.py:22 | the list comprehension names every key whose value is `None`, and only those |
| Database.MissingKeysInOrder | fastapiexercise/myproject/app/database.py:22 | the keys come out in the order of their items: a key listed before another belongs to an earlier unset item |
| Database.DefaultPortText | fastapiexercise/myproject/app/database.py:18 | the default port text `"5432"` converts to 5432 |
| Database.LoadDatabaseConfig | fastapiexercise/myproject/app/database.py:7-38 | fails exactly when `DATABASE_USER` or `DATABASE_PASSWORD` is unset, naming exactly the unset ones as `user`, `password` in that order and never `host`, `database` or `port`; on success every field is the variable's value or its default, and the port is the parsed integer, or 5432 when unset, not an integer or longer than 4300 digits |
| Database.DatabaseModule.constructor | fastapiexercise/myproject/app/database.py:41 | the module keeps the configuration it was loaded with |
| Database.DatabaseModule.GetDatabaseConfig | fastapiexercise/myproject/app/database.py:66-68 | returns a value equal to the configuration loaded at import |
| Database.ImportDatabaseModule | fastapiexercise/myproject/app/database.py:40-41 | importing fails exactly when a credential is unset; otherwise the module's configuration is resolved from the environment |
| Sql.StoreVarchar | fastapiexercise/myproject/app/myapi.py:40-42 | a value of at most `n` characters is stored as given; a longer one is accepted exactly when its excess is spaces, and is then cut to exactly its first `n` characters |
| Sql.LowerIdempotent | fastapiexercise/myproject/app/myapi.py:123 | lower-casing an already lower-cased text changes nothing |
| Sql.LowerFoldsOnlyCapitals | fastapiexercise/myproject/app/myapi.py:123 | lower-casing leaves no capital `A`..`Z`, and changes only characters that were capitals |
| Sql.LikeAnything | fastapiexercise/myproject/app/myapi.py:123 | the pattern `%` matches every text |
| Sql.LikeLiteralPrefix | fastapiexercise/myproject/app/myapi.py:123 | a wildcard-free `q` followed by `%` matches exactly the texts that start with `q` |
| Sql.LikeLeadingPercent | fastapiexercise/myproject/app/myapi.py:123 | a leading `%` matches exactly when the rest of the pattern matches some suffix |
| Sql.ILikeIsSubstring | fastapiexercise/myproject/app/myapi.py:123 | for a wildcard-free query, `ILIKE '%q%'` holds exactly when the lower-cased text contains the lower-cased query |
| Models.StoreRow | fastapiexercise/myproject/app/myapi.py:38-43 | a student whose values fit the columns is stored unchanged; storing succeeds exactly when the age is int4 and the name and any class can be stored in `VARCHAR(100)` and `VARCHAR(50)`, and the stored name and class are those stored values; any stored row fits the columns, keeps the age, and has a class exactly when one was given |
| UpdateQuery.SuppliedColumns | fastapiexercise/myproject/app/myapi.py:154-162 | the columns named are exactly the non-`None` fields, each once |
| UpdateQuery.ParseClauseOfClause | fastapiexercise/myproject/app/myapi.py:155-161 | a clause `column = $n` built by the handler reads back as that column and placeholder |
| UpdateQuery.BuildSetClauses | fastapiexercise/myproject/app/myapi.py:152-162 | builds one `column = $k` clause per supplied field in name, age, class order, numbering the placeholders from 1 and pairing each with its value; the list is empty exactly when no field is supplied |
| UpdateQuery.BuildUpdateStatement | fastapiexercise/myproject/app/myapi.py:152-171 | refuses (400) exactly when no field is supplied; otherwise the parameters are the field values followed by the id, and the `WHERE` placeholder is the last one |
| UpdateQuery.Merged | fastapiexercise/myproject/app/myapi.py:154-162 | an update with no field leaves the row unchanged; the class is `NULL` afterwards exactly when it was `NULL` and no class was supplied |
| UpdateQuery.ApplyBuiltClauses | fastapiexercise/myproject/app/myapi.py:166-172 | applying the built `SET` clauses to a row, with the built parameters, overwrites exactly the supplied fields |
| UpdateQuery.BuiltStatementUpdatesSuppliedFields | fastapiexercise/myproject/app/myapi.py:165-173 | running the statement the handler builds on an existing row stores and returns the row with the supplied fields overwritten, or fails when a value does not fit |
| MyApi.OrderedRows | fastapiexercise/myproject/app/myapi.py:98-99 | lists every row with an id in the range exactly once, as stored, in strictly increasing id order |
| MyApi.MatchingNames | fastapiexercise/myproject/app/myapi.py:123-124 | keeps exactly the students whose name matches the pattern under `ILIKE`, never more of them than it was given, and keeps an id-ordered input in id order |
| MyApi.SearchIsSubstringMatch | fastapiexercise/myproject/app/myapi.py:123-124 | for a query without wildcards, the search keeps exactly the students whose lower-cased name contains the lower-cased query |
| MyApi.StudentTable.constructor | fastapiexercise/myproject/app/myapi.py:37-44 | `CREATE TABLE` gives an empty table whose sequence starts at 1 |
| MyApi.StudentTable.CreateTables | fastapiexercise/myproject/app/myapi.py:45-51 | a non-empty table is left as it is; an empty one receives John and then Jane under the next two sequence values, unless the sequence cannot give out two more ids |
| MyApi.StudentTable.GetAllStudents | fastapiexercise/myproject/app/myapi.py:96-99 | every stored student exactly once, as stored, in ascending id order |
| MyApi.StudentTable.GetStudent | fastapiexercise/myproject/app/myapi.py:104-117 | 422 exactly for an id that is not positive; the stored record for a present id; 404 exactly for an absent positive int4 id; 500 exactly for an id beyond int4 |
| MyApi.StudentTable.GetStudentByName | fastapiexercise/myproject/app/myapi.py:121-126 | exactly the stored students whose name matches `%name%` under `ILIKE`; for a name without wildcards, those whose lower-cased name contains the lower-cased query; no student appears twice |
| MyApi.StudentTable.AddStudent | fastapiexercise/myproject/app/myapi.py:130-139 | succeeds exactly when the sequence is not exhausted and the values can be stored; the new row gets a fresh id larger than every existing one, nothing else changes, and the row returned is the row stored; on failure nothing changes |
| MyApi.StudentTable.UpdateStudent | fastapiexercise/myproject/app/myapi.py:143-177 | 500 for a non-int4 id; 404 for an absent id; 400 for an empty payload; otherwise exactly the supplied fields of that row are overwritten and the row is returned, or 500 with nothing changed when a value does not fit; no other row changes |
| MyApi.StudentTable.DeleteStudent | fastapiexercise/myproject/app/myapi.py:181-190 | removes exactly the given row and returns its id; 404 for an absent id; 500 for a non-int4 id; nothing else changes |
| MyApi.ThroughGetDbAsWritten | fastapiexercise/myproject/app/database.py:52-63 | as written, a handler's 404 or 400 reaches the client as a 500; a result, a 422 and a 500 are unchanged |
| MyApi.AbsentStudentIsServerErrorAsWritten | fastapiexercise/myproject/app/database.py:58-60 | through `get_db` as written, fetching an absent student gives 500, although the handler raises 404 |
| MyApi.AbsentStudentIsNotFound | fastapiexercise/myproject/app/myapi.py:111-115 | through the corrected `get_db` (`ThroughGetDb`, which re-raises `HTTPException`), fetching an absent student gives 404 |
| MyApi.BootstrapTwice | fastapiexercise/myproject/app/myapi.py:45-51 | running the startup seeding twice on an empty table inserts John and Jane once |
| MyApi.AddThenGet | fastapiexercise/myproject/app/myapi.py:130-139 | a created student, fetched by the returned id, is the record the create returned |
| MyApi.DeleteThenGet | fastapiexercise/myproject/app/myapi.py:181-190 | after a successful delete, fetching the same id is a 404 |
| MyApi.JaInJaneNotJohn | fastapiexercise/myproject/app/myapi.py:49-50 | ignoring case, "ja" occurs in "Jane" and not in "John" |
| MyApi.SeededSearch | fastapiexercise/myproject/app/myapi.py:121-124 | on the freshly seeded table, searching "ja" finds Jane (id 2) and not John (id 1) |

## Left out

- The database connection is left out: `asyncpg.connect`, `get_db_connection`, the
  connection probe in `lifespan`, and the closing of connections. The table is in memory,
  and a connection failure (HTTP 500) is not modelled.
- The handler members of `StudentTable` give the outcome the handler itself raises. How
  `get_db` may re-map that outcome is modelled separately, by `ThroughGetDbAsWritten` (see
  Findings).
- `print` output, the `DEBUG` line, the uvicorn entry point, and the `index` and
  `health_check` endpoints carry no state or logic of the core.
- `cli.py` is not part of this model.
- Request-body validation by Pydantic happens before any handler runs. The model starts
  from already-typed values. The `gt=0` check on `get_student`'s path is modelled.
- Error messages are left out. Only the outcome kind (200, 400, 404, 422, 500) is kept,
  not the `detail` text.
- The SQL text and its whitespace are left out. The update statement is modelled by its
  list of `SET` clauses and its `WHERE` placeholder number.
- Simultaneous `SET`: SQL evaluates all `SET` clauses at once, while `ApplySet` applies
  them left to right. The two agree for the distinct columns the handler names.
- Sequence values used up by failed inserts are left out. The model's counter advances
  only on a successful insert.
- Concurrency is left out: the model has no concurrent requests. For example, a row
  deleted between `update_student`'s existence check and its `UPDATE` would give a 500 in
  the source.
- Sql.Lower: only ASCII letters are lower-cased. PostgreSQL's locale-dependent case
  folding of other characters is not modelled.
- Sql.Like: a pattern ending in a lone `\` is treated as a literal backslash, where
  PostgreSQL reports an error. The handler's patterns always end in `%`.
- Text containing NUL characters, which PostgreSQL refuses, is not modelled.
- Decimal.ParseInt: accepts an optional sign and ASCII digits only. It does not model
  Python's surrounding whitespace, `_` digit separators or non-ASCII digits, all of which
  `int()` also accepts. The digit limit is fixed at Python's default of 4300; a limit
  changed with `sys.set_int_max_str_digits`, or a Python release without the limit, is
  not modelled.
- MyApi.StudentTable.GetStudentByName: the result order is not specified. The source's
  query has no `ORDER BY`, so the contract states membership and that no student appears
  twice, not the order.

## Findings

| source | as written | input that shows it | evidently intended | confidence | as-written member | corrected member |
|---|---|---|---|---|---|---|
| fastapiexercise/myproject/app/database.py:52-63 | `get_db` wraps `yield conn` in `except Exception: raise HTTPException(500)`. In FastAPI 0.106 and later, an exception the endpoint raises is thrown into the dependency at `yield`, and `HTTPException` is an `Exception`. | `GET /students/{id}` for an absent positive id: the handler raises 404 (app/myapi.py:112), and the client receives 500. Likewise the 404s at app/myapi.py:151 and :185 and the 400 at :164. | The handler's own `HTTPException` reaches the client, as its `except HTTPException: raise` (app/myapi.py:114-115) intends. | medium; not executed; depends on the FastAPI release in use | MyApi.AbsentStudentIsServerErrorAsWritten | MyApi.AbsentStudentIsNotFound |

=== FILE: database.dfy ===
/**
 * Resolution of the PostgreSQL connection settings from the process environment
 * (app/database.py), and the configuration cached once when that module is loaded.
 *
 * The environment is a map from variable name to value; an unset variable is a name
 * that is not in the map, and a variable set to the empty string is present with "".
 */
module Database {
  import opened Wrappers
  import opened Decimal

  type Environment = map<string, string>

  const HOST_VAR := "DATABASE_HOST"
  const NAME_VAR := "DATABASE_NAME"
  const USER_VAR := "DATABASE_USER"
  const PASSWORD_VAR := "DATABASE_PASSWORD"
  const PORT_VAR := "DATABASE_PORT"

  /** Default host: the Docker Compose service name. */
  const DEFAULT_HOST := "db"
  const DEFAULT_DATABASE := "denemedb"
  const DEFAULT_PORT_TEXT := "5432"
  const DEFAULT_PORT := 5432

  /** `os.getenv(name)`: the value, or `None` when the variable is unset. */
  function Getenv(env: Environment, name: string): Option<string> {
    if name in env then Some(env[name]) else None
  }

  /** `os.getenv(name, default)`. */
  function GetenvOr(env: Environment, name: string, default: string): string {
    if name in env then env[name] else default
  }

  /** The resolved settings handed to `asyncpg.connect`. */
  datatype DbConfig = DbConfig(host: string, database: string, user: string, password: string, port: int)

  /** Either the resolved settings, or the `ValueError` listing the keys that stayed `None`. */
  datatype LoadResult = Loaded(config: DbConfig) | MissingVars(keys: seq<string>)

  /** One entry of the `config` dict before the port is converted: a key and a possibly-`None` value. */
  datatype Item = Item(key: string, value: Option<string>)

  /** `[key for key, value in items if value is None]`. */
  function MissingKeys(items: seq<Item>): (missing: seq<string>)
    ensures |missing| <= |items|
    ensures forall i :: 0 <= i < |items| && items[i].value.None? ==> items[i].key in missing
    ensures forall k :: k in missing ==> exists i :: 0 <= i < |items| && items[i].key == k && items[i].value.None?
  {
    if items == [] then []
    else
      var rest := MissingKeys(items[1..]);
      assert forall i :: 1 <= i < |items| ==> items[i] == items[1..][i - 1];
      if items[0].value.None? then [items[0].key] + rest else rest
  }

  /** Key `a` belongs to an unset item that comes before an unset item with key `b`. */
  predicate UnsetBefore(items: seq<Item>, a: string, b: string) {
    exists i, j :: 0 <= i < j < |items| && items[i] == Item(a, None) && items[j] == Item(b, None)
  }

  /** An order fact about `tail` carries over to `[head] + tail`. */
  lemma UnsetBeforeCons(items: seq<Item>, a: string, b: string)
    requires items != [] && UnsetBefore(items[1..], a, b)
    ensures UnsetBefore(items, a, b)
  {
    var i, j :| 0 <= i < j < |items[1..]| && items[1..][i] == Item(a, None) && items[1..][j] == Item(b, None);
    assert items[i + 1] == Item(a, None) && items[j + 1] == Item(b, None);
  }

  /** An unset first item comes before every key listed for the rest. */
  lemma UnsetHeadBefore(items: seq<Item>, b: string)
    requires items != [] && items[0].value.None? && b in MissingKeys(items[1..])
    ensures UnsetBefore(items, items[0].key, b)
  {
    var tail := items[1..];
    var j :| 0 <= j < |tail| && tail[j].key == b && tail[j].value.None?;
    assert items[0] == Item(items[0].key, None) && items[j + 1] == Item(b, None);
  }

  /** `missing` lists keys of `items` with no two swapped. */
  predicate KeysInOrder(items: seq<Item>, missing: seq<string>) {
    forall k, l :: 0 <= k < l < |missing| ==> UnsetBefore(items, missing[k], missing[l])
  }

  /** Putting an unset head's key in front keeps the order. */
  lemma KeysInOrderConsUnset(items: seq<Item>, rest: seq<string>)
    requires items != [] && items[0].value.None?
    requires KeysInOrder(items[1..], rest)
    requires forall b :: b in rest ==> UnsetBefore(items, items[0].key, b)
    ensures KeysInOrder(items, [items[0].key] + rest)
  {
    var missing := [items[0].key] + rest;
    forall k, l | 0 <= k < l < |missing|
      ensures UnsetBefore(items, missing[k], missing[l])
    {
      if k == 0 {
        assert missing[l] == rest[l - 1] && rest[l - 1] in rest;
      } else {
        UnsetBeforeCons(items, rest[k - 1], rest[l - 1]);
      }
    }
  }

  /** Skipping a set head keeps the order. */
  lemma KeysInOrderConsSet(items: seq<Item>, rest: seq<string>)
    requires items != [] && KeysInOrder(items[1..], rest)
    ensures KeysInOrder(items, rest)
  {
    forall k, l | 0 <= k < l < |rest|
      ensures UnsetBefore(items, rest[k], rest[l])
    {
      UnsetBeforeCons(items, rest[k], rest[l]);
    }
  }

  /** The keys come out in the order of their items: no two are swapped. */
  lemma {:induction false} MissingKeysInOrder(items: seq<Item>)
    ensures KeysInOrder(items, MissingKeys(items))
    decreases |items|
  {
    if items != [] {
      var rest := MissingKeys(items[1..]);
      MissingKeysInOrder(items[1..]);
      if items[0].value.None? {
        forall b | b in rest
          ensures UnsetBefore(items, items[0].key, b)
        {
          UnsetHeadBefore(items, b);
        }
        KeysInOrderConsUnset(items, rest);
      } else {
        KeysInOrderConsSet(items, rest);
      }
    }
  }

  /** The port after conversion: `int(text)`, or 5432 when `int` raises `ValueError`. */
  function CoercedPort(text: string): int {
    ParseInt(text).GetOr(DEFAULT_PORT)
  }

  /**
   * What a successful resolution yields for `env`: each optional setting from its
   * variable or its default, each credential verbatim from its variable, and the port
   * text converted to an integer.
   */
  ghost predicate ResolvedFrom(env: Environment, c: DbConfig) {
    && c.host == GetenvOr(env, HOST_VAR, DEFAULT_HOST)
    && c.database == GetenvOr(env, NAME_VAR, DEFAULT_DATABASE)
    && USER_VAR in env && c.user == env[USER_VAR]
    && PASSWORD_VAR in env && c.password == env[PASSWORD_VAR]
    && c.port == CoercedPort(GetenvOr(env, PORT_VAR, DEFAULT_PORT_TEXT))
  }

  /** The default port text converts to the default port. */
  lemma DefaultPortText()
    ensures ParseInt(DEFAULT_PORT_TEXT) == Some(DEFAULT_PORT)
  {
    ParseShowInt(DEFAULT_PORT);
    assert ShowInt(DEFAULT_PORT) == DEFAULT_PORT_TEXT by {
      assert ShowNat(543) == "543" by {
        assert ShowNat(54) == "54" by {
          assert ShowNat(5) == "5";
        }
      }
    }
  }

  /**
   * `load_database_config`: builds the five-entry dict (host, database, user, password,
   * port, in that order), fails listing the keys whose value is `None`, and otherwise
   * converts the port text to an integer, falling back to 5432 when it is not one.
   */
  method LoadDatabaseConfig(env: Environment) returns (r: LoadResult)
    ensures r.MissingVars? <==> USER_VAR !in env || PASSWORD_VAR !in env
    ensures r.MissingVars? ==>
      r.keys == (if USER_VAR in env then [] else ["user"]) + (if PASSWORD_VAR in env then [] else ["password"])
    ensures r.MissingVars? ==> "host" !in r.keys && "database" !in r.keys && "port" !in r.keys
    ensures r.Loaded? ==> ResolvedFrom(env, r.config)
    ensures r.Loaded? && PORT_VAR !in env ==> r.config.port == DEFAULT_PORT
    ensures r.Loaded? && PORT_VAR in env && !IsIntLiteral(env[PORT_VAR]) ==> r.config.port == DEFAULT_PORT
    ensures r.Loaded? && PORT_VAR in env && IsIntLiteral(env[PORT_VAR]) ==> ParseInt(env[PORT_VAR]) == Some(r.config.port)
  {
    var host := GetenvOr(env, HOST_VAR, DEFAULT_HOST);
    var database := GetenvOr(env, NAME_VAR, DEFAULT_DATABASE);
    var user := Getenv(env, USER_VAR);
    var password := Getenv(env, PASSWORD_VAR);
    var portText := GetenvOr(env, PORT_VAR, DEFAULT_PORT_TEXT);
    var items := [Item("host", Some(host)), Item("database", Some(database)), Item("user", user),
                  Item("password", password), Item("port", Some(portText))];

    var missing := MissingKeys(items);
    assert missing == (if user.None? then ["user"] else []) + (if password.None? then ["password"] else []) by {
      var tail := [Item("port", Some(portText))];
      assert MissingKeys(tail) == [] by { assert tail[1..] == []; }
      assert MissingKeys([Item("password", password)] + tail) == (if password.None? then ["password"] else []) by {
        assert ([Item("password", password)] + tail)[1..] == tail;
      }
      assert MissingKeys([Item("user", user), Item("password", password)] + tail)
          == (if user.None? then ["user"] else []) + (if password.None? then ["password"] else []) by {
        assert ([Item("user", user), Item("password", password)] + tail)[1..] == [Item("password", password)] + tail;
      }
      assert items[1..] == [Item("database", Some(database)), Item("user", user), Item("password", password)] + tail;
      assert items[1..][1..] == [Item("user", user), Item("password", password)] + tail;
      assert MissingKeys(items[1..]) == MissingKeys(items[1..][1..]);
      assert MissingKeys(items) == MissingKeys(items[1..]);
    }
    if missing != [] {
      return MissingVars(missing);
    }

    // the port entry is a string here; it is replaced by its integer value
    var port: int;
    var parsed := ParseInt(portText);
    if parsed.Some? {
      port := parsed.value;
    } else {
      port := DEFAULT_PORT;
    }
    DefaultPortText();
    r := Loaded(DbConfig(host, database, user.value, password.value, port));
  }

  /**
   * The loaded `database` module: `DB_CONFIG` is computed once, when the module is
   * imported, and every caller receives a copy of it.
   */
  class DatabaseModule {
    const dbConfig: DbConfig

    constructor (config: DbConfig)
      ensures dbConfig == config
    {
      dbConfig := config;
    }

    /** `get_database_config`: a copy equal to `DB_CONFIG`; `DB_CONFIG` itself is left as it was. */
    method GetDatabaseConfig() returns (c: DbConfig)
      ensures c == dbConfig
    {
      c := dbConfig;
    }
  }

  /**
   * Importing the module: `DB_CONFIG = load_database_config()`. When the loader raises,
   * the import fails and there is no module.
   */
  method ImportDatabaseModule(env: Environment) returns (m: Option<DatabaseModule>)
    ensures m.None? <==> USER_VAR !in env || PASSWORD_VAR !in env
    ensures m.Some? ==> fresh(m.value) && ResolvedFrom(env, m.value.dbConfig)
  {
    var loaded := LoadDatabaseConfig(env);
    match loaded
    case MissingVars(_) =>
      m := None;
    case Loaded(config) =>
      var loadedModule := new DatabaseModule(config);
      m := Some(loadedModule);
  }
}

=== FILE: decimal.dfy ===
/**
 * Decimal text and integers: the part of Python's `int(s)` that the configuration
 * loader relies on, and the `%d` / f-string rendering of a non-negative or negative int.
 */
module Decimal {
  import opened Wrappers

  predicate IsDigit(c: char) {
    '0' <= c <= '9'
  }

  predicate AllDigits(s: string) {
    forall i :: 0 <= i < |s| ==> IsDigit(s[i])
  }

  function DigitValue(c: char): nat
    requires IsDigit(c)
  {
    c as int - '0' as int
  }

  function DigitChar(d: nat): (c: char)
    requires d < 10
    ensures IsDigit(c) && DigitValue(c) == d
  {
    ('0' as int + d) as char
  }

  /** The value of a string of decimal digits, most significant digit first. */
  function DigitsValue(s: string): nat
    requires AllDigits(s)
  {
    if s == [] then 0 else 10 * DigitsValue(s[..|s| - 1]) + DigitValue(s[|s| - 1])
  }

  /** The most digits `int(s)` converts: the default of `sys.get_int_max_str_digits()` (Python 3.11 and later). */
  const MAX_STR_DIGITS := 4300

  /**
   * A decimal integer literal `int` accepts: an optional `+` or `-` sign followed by
   * at least one and at most `MAX_STR_DIGITS` ASCII digits, and nothing else.
   */
  predicate IsIntLiteral(s: string) {
    var body := if |s| > 0 && (s[0] == '+' || s[0] == '-') then s[1..] else s;
    0 < |body| <= MAX_STR_DIGITS && AllDigits(body)
  }

  /** Python's `int(s)`: `Some` of the value, or `None` where Python raises `ValueError`. */
  function ParseInt(s: string): (r: Option<int>)
    ensures r.Some? <==> IsIntLiteral(s)
    ensures r.Some? && r.value < 0 ==> s[0] == '-'
  {
    var negative := |s| > 0 && s[0] == '-';
    var body := if |s| > 0 && (s[0] == '+' || s[0] == '-') then s[1..] else s;
    if body == [] || |body| > MAX_STR_DIGITS || !AllDigits(body) then None
    else if negative then Some(-(DigitsValue(body) as int))
    else Some(DigitsValue(body))
  }

  /** The shortest decimal rendering of `n`, as `"%d" % n` prints it. */
  function ShowNat(n: nat): (s: string)
    ensures |s| > 0 && AllDigits(s)
    ensures |s| > 1 ==> s[0] != '0'
  {
    if n < 10 then [DigitChar(n)] else ShowNat(n / 10) + [DigitChar(n % 10)]
  }

  /** `str(n)`: a sign for a negative `n`, then the digits of its magnitude. */
  function ShowInt(n: int): (s: string)
    ensures |s| > 0
    ensures IsIntLiteral(s) <==> |ShowNat(if n < 0 then -n else n)| <= MAX_STR_DIGITS
  {
    if n < 0 then "-" + ShowNat(-n) else ShowNat(n)
  }

  lemma {:induction false} DigitsValueOfShowNat(n: nat)
    ensures DigitsValue(ShowNat(n)) == n
  {
    if n >= 10 {
      var s := ShowNat(n);
      assert s[..|s| - 1] == ShowNat(n / 10);
      DigitsValueOfShowNat(n / 10);
    }
  }

  /**
   * Rendering an integer and parsing it back gives the integer: `int(str(n)) == n`, for
   * every `n` whose digits Python converts at all (`str` refuses the others too).
   */
  lemma ParseShowInt(n: int)
    requires |ShowNat(if n < 0 then -n else n)| <= MAX_STR_DIGITS
    ensures ParseInt(ShowInt(n)) == Some(n)
  {
    if n < 0 {
      assert ShowInt(n)[1..] == ShowNat(-n);
      DigitsValueOfShowNat(-n);
    } else {
      DigitsValueOfShowNat(n);
    }
  }
}

=== FILE: models.dfy ===
/**
 * The records of app/myapi.py: the stored columns of a student, the request bodies,
 * the response, the outcome kinds of a handler, and the `students` table's schema.
 */
module Models {
  import opened Wrappers
  import opened Sql

  /** The non-key columns of a `students` row, and the body of a create request. */
  datatype Student = Student(name: string, age: int, class_: Option<string>)

  /** The body of an update request: every field optional. */
  datatype StudentUpdate = StudentUpdate(name: Option<string>, age: Option<int>, class_: Option<string>)

  /** A row as the handlers return it. */
  datatype StudentResponse = StudentResponse(id: int, name: string, age: int, class_: Option<string>)

  /** What a request ends in: a value, or HTTP 404, 400, 422 (a path parameter refused before the handler runs) or 500. */
  datatype Outcome<T> = Ok(value: T) | NotFound | BadRequest | Unprocessable | ServerError

  function Response(id: int, s: Student): StudentResponse {
    StudentResponse(id, s.name, s.age, s.class_)
  }

  const NAME_LENGTH := 100
  const CLASS_LENGTH := 50

  /** `name VARCHAR(100) NOT NULL, age INTEGER NOT NULL, class VARCHAR(50)`: values the columns hold as given. */
  predicate FitsColumns(s: Student) {
    && |s.name| <= NAME_LENGTH
    && IsInt4(s.age)
    && (s.class_.Some? ==> |s.class_.value| <= CLASS_LENGTH)
  }

  /**
   * Writing a student into a row: `None` when PostgreSQL (or asyncpg, for the age) rejects
   * a value; otherwise the stored row, in which over-long text was cut at the column width.
   */
  function StoreRow(s: Student): (r: Option<Student>)
    ensures FitsColumns(s) ==> r == Some(s)
    ensures r.Some? ==> FitsColumns(r.value) && r.value.age == s.age
    ensures r.Some? ==> r.value.name <= s.name && (s.class_.None? <==> r.value.class_.None?)
    ensures r.Some? <==>
      && IsInt4(s.age)
      && StoreVarchar(s.name, NAME_LENGTH).Some?
      && (s.class_.Some? ==> StoreVarchar(s.class_.value, CLASS_LENGTH).Some?)
    ensures r.Some? ==>
      && r.value.name == StoreVarchar(s.name, NAME_LENGTH).value
      && (s.class_.Some? ==> r.value.class_ == Some(StoreVarchar(s.class_.value, CLASS_LENGTH).value))
  {
    if !IsInt4(s.age) then None
    else
      match StoreVarchar(s.name, NAME_LENGTH)
      case None => None
      case Some(name) =>
        match s.class_
        case None => Some(Student(name, s.age, None))
        case Some(c) =>
          match StoreVarchar(c, CLASS_LENGTH)
          case None => None
          case Some(stored) => Some(Student(name, s.age, Some(stored)))
  }

  /** The rows `create_tables` inserts into an empty table, in this order. */
  const SEED_JOHN := Student("John", 20, Some("Year 2"))
  const SEED_JANE := Student("Jane", 22, Some("Year 4"))
}

=== FILE: myapi.dfy ===
/**
 * The `students` table behind the handlers of app/myapi.py, held in memory: the rows by
 * id and the next value of the `SERIAL` sequence. The startup seeding and the create,
 * update and delete handlers change it; the list, get and search handlers read it.
 */
module MyApi {
  import opened Wrappers
  import opened Sql
  import opened Models
  import opened UpdateQuery

  predicate StrictlyIncreasingIds(r: seq<StudentResponse>) {
    forall k, l :: 0 <= k < l < |r| ==> r[k].id < r[l].id
  }

  /** The rows whose ids lie in `[lo, hi)`, by ascending id (`ORDER BY id`). */
  function OrderedRows(rows: map<int, Student>, lo: int, hi: int): (r: seq<StudentResponse>)
    ensures forall k :: 0 <= k < |r| ==>
      lo <= r[k].id < hi && r[k].id in rows && r[k] == Response(r[k].id, rows[r[k].id])
    ensures StrictlyIncreasingIds(r)
    ensures forall id :: lo <= id < hi && id in rows ==> Response(id, rows[id]) in r
    decreases hi - lo
  {
    if lo >= hi then []
    else
      var rest := OrderedRows(rows, lo + 1, hi);
      if lo in rows then [Response(lo, rows[lo])] + rest else rest
  }

  /**
   * The students whose name matches `pattern` under `ILIKE`, each kept once and in the
   * order given: the `WHERE` filter drops rows and never repeats or reorders one.
   */
  function MatchingNames(students: seq<StudentResponse>, pattern: string): (r: seq<StudentResponse>)
    ensures forall s :: s in r <==> s in students && ILike(s.name, pattern)
    ensures |r| <= |students|
    ensures StrictlyIncreasingIds(students) ==> StrictlyIncreasingIds(r)
  {
    if students == [] then []
    else
      var rest := MatchingNames(students[1..], pattern);
      assert forall s :: s in students <==> s == students[0] || s in students[1..];
      if ILike(students[0].name, pattern) then
        assert StrictlyIncreasingIds(students) ==> forall s :: s in rest ==> students[0].id < s.id;
        [students[0]] + rest
      else rest
  }

  /** For a query without wildcards, the `%query%` search is a case-insensitive substring test. */
  lemma SearchIsSubstringMatch(students: seq<StudentResponse>, query: string)
    requires IsLiteral(query)
    ensures forall s :: s in MatchingNames(students, "%" + query + "%") <==>
      s in students && ContainsSubstring(Lower(s.name), Lower(query))
  {
    forall s | s in students
      ensures ILike(s.name, "%" + query + "%") <==> ContainsSubstring(Lower(s.name), Lower(query))
    {
      ILikeIsSubstring(s.name, query);
    }
  }

  class StudentTable {
    var rows: map<int, Student>
    /** The value the `SERIAL` sequence hands out next. */
    var nextId: int

    /** Ids are positive, below the next sequence value and int4; stored rows fit the columns. */
    ghost predicate Valid()
      reads this
    {
      && 1 <= nextId <= INT4_MAX + 1
      && forall id :: id in rows ==> 1 <= id < nextId && FitsColumns(rows[id])
    }

    /** A newly created, empty `students` table whose sequence starts at 1. */
    constructor ()
      ensures Valid() && rows == map[] && nextId == 1
    {
      rows, nextId := map[], 1;
    }

    /**
     * `create_tables`: the table already exists; if it holds no row, insert John and then
     * Jane in one statement, which fails when the sequence cannot give out two more ids.
     */
    method CreateTables() returns (ok: bool)
      requires Valid()
      modifies this
      ensures Valid()
      ensures old(rows) != map[] ==> ok && rows == old(rows) && nextId == old(nextId)
      ensures old(rows) == map[] ==> (ok <==> old(nextId) < INT4_MAX)
      ensures old(rows) == map[] && ok ==>
        rows == map[old(nextId) := SEED_JOHN, old(nextId) + 1 := SEED_JANE] && nextId == old(nextId) + 2
      ensures !ok ==> rows == old(rows) && nextId == old(nextId)
    {
      ok := true;
      if |rows| == 0 {
        if nextId < INT4_MAX {
          rows := map[nextId := SEED_JOHN, nextId + 1 := SEED_JANE];
          nextId := nextId + 2;
        } else {
          ok := false;
        }
      }
    }

    /** `get_all_students`: every stored student, each exactly once, in ascending id order. */
    function GetAllStudents(): (r: seq<StudentResponse>)
      reads this
      requires Valid()
      ensures StrictlyIncreasingIds(r)
      ensures forall k :: 0 <= k < |r| ==> r[k].id in rows && r[k] == Response(r[k].id, rows[r[k].id])
      ensures forall id :: id in rows ==> Response(id, rows[id]) in r
    {
      OrderedRows(rows, 1, nextId)
    }

    /**
     * `get_student`: 422 for an id that is not positive (the path declares `gt=0`), the
     * stored record, 404 for an absent id, 500 for an id asyncpg cannot send as int4.
     */
    function GetStudent(id: int): (r: Outcome<StudentResponse>)
      reads this
      requires Valid()
      ensures r.Ok? || r == NotFound || r == Unprocessable || r == ServerError
      ensures id in rows ==> r == Ok(Response(id, rows[id]))
      ensures r == Unprocessable <==> id <= 0
      ensures r == NotFound <==> 0 < id <= INT4_MAX && id !in rows
      ensures r == ServerError <==> id > INT4_MAX
    {
      if id <= 0 then Unprocessable
      else if !IsInt4(id) then ServerError
      else if id !in rows then NotFound
      else Ok(Response(id, rows[id]))
    }

    /** `get_student_by_name`: the students whose name `ILIKE '%name%'`. */
    function GetStudentByName(name: string): (r: seq<StudentResponse>)
      reads this
      requires Valid()
      ensures forall s :: s in r <==> s in GetAllStudents() && ILike(s.name, "%" + name + "%")
      ensures IsLiteral(name) ==>
        forall s :: s in r <==> s in GetAllStudents() && ContainsSubstring(Lower(s.name), Lower(name))
      ensures forall k, l :: 0 <= k < l < |r| ==> r[k].id != r[l].id
    {
      var all := GetAllStudents();
      if IsLiteral(name) then SearchIsSubstringMatch(all, name); MatchingNames(all, "%" + name + "%")
      else MatchingNames(all, "%" + name + "%")
    }

    /**
     * `add_student`: `INSERT ... RETURNING`. The new row takes the next sequence value as
     * its id; the insert fails when the sequence is exhausted or a value does not fit.
     */
    method AddStudent(s: Student) returns (r: Outcome<StudentResponse>)
      requires Valid()
      modifies this
      ensures Valid()
      ensures r.Ok? || r == ServerError
      ensures r.Ok? <==> old(nextId) <= INT4_MAX && StoreRow(s).Some?
      ensures r.Ok? ==>
        && r.value.id !in old(rows)
        && (forall id :: id in old(rows) ==> id < r.value.id)
        && r.value == Response(r.value.id, StoreRow(s).value)
        && rows == old(rows)[r.value.id := StoreRow(s).value]
        && nextId == r.value.id + 1
      ensures r.Ok? && FitsColumns(s) ==> r.value == Response(r.value.id, s)
      ensures r == ServerError ==> rows == old(rows) && nextId == old(nextId)
    {
      if nextId > INT4_MAX {
        return ServerError;
      }
      var stored := StoreRow(s);
      if stored.None? {
        return ServerError;
      }
      var id := nextId;
      rows := rows[id := stored.value];
      nextId := nextId + 1;
      r := Ok(Response(id, stored.value));
    }

    /**
     * `update_student`: 404 for an absent id, 400 for a payload with no field, otherwise
     * the built `UPDATE` overwrites the supplied fields of that row and returns it.
     */
    method UpdateStudent(id: int, u: StudentUpdate) returns (r: Outcome<StudentResponse>)
      requires Valid()
      modifies this
      ensures Valid()
      ensures nextId == old(nextId)
      ensures r.Ok? || r == NotFound || r == BadRequest || r == ServerError
      ensures !r.Ok? ==> rows == old(rows)
      ensures !IsInt4(id) ==> r == ServerError
      ensures IsInt4(id) && id !in old(rows) ==> r == NotFound
      ensures id in old(rows) && u == StudentUpdate(None, None, None) ==> r == BadRequest
      ensures id in old(rows) && u != StudentUpdate(None, None, None) ==>
        match StoreRow(Merged(old(rows)[id], u))
        case None => r == ServerError
        case Some(stored) => r == Ok(Response(id, stored)) && rows == old(rows)[id := stored]
      ensures id in old(rows) && u != StudentUpdate(None, None, None) && FitsColumns(Merged(old(rows)[id], u)) ==>
        r == Ok(Response(id, Merged(old(rows)[id], u))) && rows == old(rows)[id := Merged(old(rows)[id], u)]
    {
      if !IsInt4(id) {
        return ServerError;
      }
      // `SELECT id ... WHERE id = $1`: the id itself, which is never 0, so falsy only when absent
      if id !in rows {
        return NotFound;
      }
      var built := BuildUpdateStatement(id, u);
      if built.None? {
        return BadRequest;
      }
      var (stmt, params) := built.value;
      BuiltStatementUpdatesSuppliedFields(rows, id, u, stmt, params);
      var execution := Execute(rows, stmt, params);
      if execution.Failed? {
        r := ServerError;
      } else {
        rows := execution.rows;
        r := Ok(execution.returning[0]);
      }
    }

    /** `delete_student`: `DELETE ... RETURNING id`; the deleted id, or 404 when absent. */
    method DeleteStudent(id: int) returns (r: Outcome<int>)
      requires Valid()
      modifies this
      ensures Valid()
      ensures nextId == old(nextId)
      ensures !IsInt4(id) ==> r == ServerError && rows == old(rows)
      ensures IsInt4(id) && id !in old(rows) ==> r == NotFound && rows == old(rows)
      ensures id in old(rows) ==> r == Ok(id) && rows == old(rows) - {id}
    {
      if !IsInt4(id) {
        return ServerError;
      }
      if id !in rows {
        return NotFound;
      }
      rows := rows - {id};
      r := Ok(id);
    }
  }

  /**
   * The response after the handler's outcome passes back through `get_db` as written, in
   * FastAPI releases that throw the handler's exception into the dependency at its
   * `yield`: `except Exception` also catches the handler's `HTTPException`, so a 404 or a
   * 400 raised by the handler leaves as a 500. A result and a 422 (refused before the
   * handler runs) are not affected.
   */
  function ThroughGetDbAsWritten<T>(o: Outcome<T>): (r: Outcome<T>)
    ensures r.Ok? <==> o.Ok?
    ensures o.Ok? || o == Unprocessable ==> r == o
    ensures o == NotFound || o == BadRequest || o == ServerError ==> r == ServerError
  {
    match o
    case Ok(_) => o
    case Unprocessable => o
    case _ => ServerError
  }

  /**
   * The response after `get_db` with `except HTTPException: raise` ahead of its
   * `except Exception`, as the handlers' own `except HTTPException: raise` intends: the
   * handler's outcome reaches the client unchanged. The handlers above return this.
   */
  function ThroughGetDb<T>(o: Outcome<T>): Outcome<T> {
    o
  }

  /** As written, fetching an absent student reaches the client as a 500, not a 404. */
  lemma AbsentStudentIsServerErrorAsWritten(t: StudentTable, id: int)
    requires t.Valid() && 0 < id <= INT4_MAX && id !in t.rows
    ensures t.GetStudent(id) == NotFound
    ensures ThroughGetDbAsWritten(t.GetStudent(id)) == ServerError
  {
  }

  /** With the dependency corrected, fetching an absent student reaches the client as a 404. */
  lemma AbsentStudentIsNotFound(t: StudentTable, id: int)
    requires t.Valid() && 0 < id <= INT4_MAX && id !in t.rows
    ensures ThroughGetDb(t.GetStudent(id)) == NotFound
  {
  }

  /** Startup run twice on an empty table: the second run finds the seed rows and adds none. */
  method BootstrapTwice(t: StudentTable) returns (first: bool, second: bool)
    requires t.Valid() && t.rows == map[] && t.nextId < INT4_MAX
    modifies t
    ensures t.Valid() && first && second
    ensures t.rows == map[old(t.nextId) := SEED_JOHN, old(t.nextId) + 1 := SEED_JANE]
  {
    first := t.CreateTables();
    assert old(t.nextId) in t.rows;
    second := t.CreateTables();
  }

  /** A created student, fetched by the id the create returned, is the record the create returned. */
  method AddThenGet(t: StudentTable, s: Student) returns (added: Outcome<StudentResponse>, fetched: Outcome<StudentResponse>)
    requires t.Valid()
    modifies t
    ensures t.Valid()
    ensures added.Ok? ==> fetched == added
    ensures added.Ok? && FitsColumns(s) ==> fetched == Ok(Response(added.value.id, s))
  {
    added := t.AddStudent(s);
    fetched := if added.Ok? then t.GetStudent(added.value.id) else NotFound;
  }

  /** After a successful delete, fetching the deleted id is a 404. */
  method DeleteThenGet(t: StudentTable, id: int) returns (deleted: Outcome<int>, fetched: Outcome<StudentResponse>)
    requires t.Valid()
    modifies t
    ensures t.Valid()
    ensures deleted.Ok? ==> deleted.value == id && fetched == NotFound
    ensures deleted == NotFound && id > 0 ==> fetched == NotFound
  {
    deleted := t.DeleteStudent(id);
    fetched := t.GetStudent(id);
  }

  /** "ja" occurs in "Jane" and not in "John", ignoring case. */
  lemma JaInJaneNotJohn()
    ensures ContainsSubstring(Lower("Jane"), Lower("ja"))
    ensures !ContainsSubstring(Lower("John"), Lower("ja"))
  {
    assert Lower("ja") == "ja";
    assert Lower("Jane") == "jane";
    assert Lower("John") == "john";
    assert "ja" <= "jane"[0..];
    forall i | 0 <= i <= 4
      ensures !("ja" <= "john"[i..])
    {
      var rest := "john"[i..];
      assert |rest| == 4 - i;
      if i < 3 {
        assert rest[0] == "john"[i] && rest[1] == "john"[i + 1];
        assert "john"[i] != 'j' || "john"[i + 1] != 'a';
      }
    }
  }

  /** On a freshly seeded table, searching "ja" finds Jane and not John. */
  method SeededSearch() returns (matches: seq<StudentResponse>)
    ensures StudentResponse(2, "Jane", 22, Some("Year 4")) in matches
    ensures StudentResponse(1, "John", 20, Some("Year 2")) !in matches
  {
    var t := new StudentTable();
    var ok := t.CreateTables();
    assert t.rows == map[1 := SEED_JOHN, 2 := SEED_JANE];
    JaInJaneNotJohn();
    assert IsLiteral("ja");
    ghost var all := t.GetAllStudents();
    assert Response(2, SEED_JANE) in all by {
      assert 2 in t.rows && t.rows[2] == SEED_JANE;
    }
    matches := t.GetStudentByName("ja");
  }
}

=== FILE: sql.dfy ===
/**
 * The PostgreSQL behaviour the student store depends on: the range of an `INTEGER`
 * (int4) value, assignment of text to a `VARCHAR(n)` column, and `ILIKE` matching.
 */
module Sql {
  import opened Wrappers

  const INT4_MIN := -0x8000_0000
  const INT4_MAX := 0x7FFF_FFFF

  /** A value an `INTEGER` column or an int4 query parameter accepts; asyncpg rejects any other. */
  predicate IsInt4(n: int) {
    INT4_MIN <= n <= INT4_MAX
  }

  predicate AllSpaces(s: string) {
    forall i :: 0 <= i < |s| ==> s[i] == ' '
  }

  /**
   * Storing text into a `VARCHAR(n)` column: a string of at most `n` characters is kept;
   * a longer one is an error, except that excess characters that are all spaces are cut off.
   */
  function StoreVarchar(s: string, n: nat): (r: Option<string>)
    ensures |s| <= n ==> r == Some(s)
    ensures r.Some? <==> |s| <= n || AllSpaces(s[n..])
    ensures r.Some? ==> |r.value| <= n && r.value <= s && AllSpaces(s[|r.value|..])
    ensures r.Some? && |s| > n ==> |r.value| == n
  {
    if |s| <= n then Some(s)
    else if AllSpaces(s[n..]) then Some(s[..n])
    else None
  }

  function LowerChar(c: char): char {
    if 'A' <= c <= 'Z' then (c as int - 'A' as int + 'a' as int) as char else c
  }

  /** Lower-casing as `ILIKE` applies it to both operands (ASCII letters only). */
  function Lower(s: string): (r: string)
    ensures |r| == |s|
    ensures forall i :: 0 <= i < |s| ==> r[i] == LowerChar(s[i])
  {
    seq(|s|, i requires 0 <= i < |s| => LowerChar(s[i]))
  }

  /** Lower-casing twice changes nothing more. */
  lemma LowerIdempotent(s: string)
    ensures Lower(Lower(s)) == Lower(s)
  {
    assert forall i :: 0 <= i < |s| ==> Lower(Lower(s))[i] == Lower(s)[i];
  }

  /** No capital letter `A`..`Z` is left, and only capitals are changed. */
  lemma LowerFoldsOnlyCapitals(s: string)
    ensures forall i :: 0 <= i < |s| ==> !('A' <= Lower(s)[i] <= 'Z')
    ensures forall i :: 0 <= i < |s| && Lower(s)[i] != s[i] ==> 'A' <= s[i] <= 'Z'
  {
  }

  /**
   * `t LIKE p` with the default escape character: `%` matches any run of characters,
   * `_` any single character, `\` makes the next character literal, and every other
   * character matches itself. (PostgreSQL rejects a pattern ending in a lone `\`;
   * here such a `\` only matches itself. The patterns the store builds end in `%`.)
   */
  function Like(t: string, p: string): bool
    decreases |t| + |p|
  {
    if p == [] then t == []
    else if p[0] == '%' then Like(t, p[1..]) || (t != [] && Like(t[1..], p))
    else if p[0] == '\\' && |p| >= 2 then t != [] && t[0] == p[1] && Like(t[1..], p[2..])
    else if p[0] == '_' then t != [] && Like(t[1..], p[1..])
    else t != [] && t[0] == p[0] && Like(t[1..], p[1..])
  }

  /** `t ILIKE p`: `LIKE` on the lower-cased operands. */
  function ILike(t: string, p: string): bool {
    Like(Lower(t), Lower(p))
  }

  /** Text with none of `LIKE`'s special characters. */
  predicate IsLiteral(q: string) {
    forall i :: 0 <= i < |q| ==> q[i] != '%' && q[i] != '_' && q[i] != '\\'
  }

  /** `sub` occurs in `s` at some position. */
  predicate ContainsSubstring(s: string, sub: string) {
    exists i :: 0 <= i <= |s| && sub <= s[i..]
  }

  lemma {:induction false} LikeAnything(t: string)
    ensures Like(t, "%")
    decreases |t|
  {
    if t != [] {
      LikeAnything(t[1..]);
    }
  }

  /** A literal followed by `%` matches exactly the strings the literal is a prefix of. */
  lemma {:induction false} LikeLiteralPrefix(t: string, q: string)
    requires IsLiteral(q)
    ensures Like(t, q + "%") <==> q <= t
    decreases |q|
  {
    if q == [] {
      assert q + "%" == "%";
      LikeAnything(t);
    } else {
      assert (q + "%")[1..] == q[1..] + "%";
      if t != [] {
        LikeLiteralPrefix(t[1..], q[1..]);
      }
    }
  }

  /** A leading `%` lets the rest of the pattern match any suffix of the text. */
  lemma {:induction false} LikeLeadingPercent(t: string, p: string)
    ensures Like(t, "%" + p) <==> exists i :: 0 <= i <= |t| && Like(t[i..], p)
    decreases |t|
  {
    assert ("%" + p)[1..] == p;
    assert t[0..] == t;
    if t == [] {
    } else {
      LikeLeadingPercent(t[1..], p);
      if Like(t[1..], "%" + p) {
        var j :| 0 <= j <= |t[1..]| && Like(t[1..][j..], p);
        assert t[1..][j..] == t[j + 1..];
      }
      if i :| 0 < i <= |t| && Like(t[i..], p) {
        assert t[1..][i - 1..] == t[i..];
      }
    }
  }

  lemma LowerKeepsLiteral(q: string)
    requires IsLiteral(q)
    ensures IsLiteral(Lower(q))
  {
  }

  /**
   * The search pattern `%q%` for a literal `q`: `t ILIKE '%q%'` holds exactly when the
   * lower-cased `q` occurs in the lower-cased `t`.
   */
  lemma ILikeIsSubstring(t: string, q: string)
    requires IsLiteral(q)
    ensures ILike(t, "%" + q + "%") <==> ContainsSubstring(Lower(t), Lower(q))
  {
    var lt, lq := Lower(t), Lower(q);
    assert Lower("%" + q + "%") == "%" + (lq + "%");
    LowerKeepsLiteral(q);
    LikeLeadingPercent(lt, lq + "%");
    forall i | 0 <= i <= |lt|
      ensures Like(lt[i..], lq + "%") <==> lq <= lt[i..]
    {
      LikeLiteralPrefix(lt[i..], lq);
    }
  }
}

=== FILE: update_query.dfy ===
/**
 * The partial-update statement of `update_student` (app/myapi.py): the `SET` clauses and
 * parameter list the handler builds, and what PostgreSQL does when it runs the resulting
 * `UPDATE students SET ... WHERE id = $k RETURNING ...`.
 */
module UpdateQuery {
  import opened Wrappers
  import opened Decimal
  import opened Sql
  import opened Models

  datatype Column = NameColumn | AgeColumn | ClassColumn

  /** A query parameter as asyncpg sends it. */
  datatype Param = TextParam(text: string) | IntParam(n: int)

  /** Whether the payload supplies (gives a non-`None` value for) column `c`. */
  predicate Supplies(u: StudentUpdate, c: Column) {
    match c
    case NameColumn => u.name.Some?
    case AgeColumn => u.age.Some?
    case ClassColumn => u.class_.Some?
  }

  /** The columns a payload supplies, in the order name, age, class. */
  function SuppliedColumns(u: StudentUpdate): (cols: seq<Column>)
    ensures forall c :: c in cols <==> Supplies(u, c)
    ensures forall i, j :: 0 <= i < j < |cols| ==> cols[i] != cols[j]
  {
    (if u.name.Some? then [NameColumn] else [])
    + (if u.age.Some? then [AgeColumn] else [])
    + (if u.class_.Some? then [ClassColumn] else [])
  }

  /** The parameter that carries the payload's value for a supplied column. */
  function SuppliedValue(u: StudentUpdate, c: Column): Param
    requires Supplies(u, c)
  {
    match c
    case NameColumn => TextParam(u.name.value)
    case AgeColumn => IntParam(u.age.value)
    case ClassColumn => TextParam(u.class_.value)
  }

  /** The text of a clause up to its placeholder number: `<column> = $`. */
  function ClausePrefix(c: Column): string {
    match c
    case NameColumn => "name = $"
    case AgeColumn => "age = $"
    case ClassColumn => "class = $"
  }

  /** The clause `<column> = $<n>`. */
  function Clause(c: Column, placeholder: nat): string {
    ClausePrefix(c) + ShowNat(placeholder)
  }

  /**
   * One clause and one value per column of `cols`, in that order: the i-th clause (from 1)
   * assigns placeholder `$i` to its column, and the i-th value is that column's new value.
   */
  ghost predicate ClausesFor(u: StudentUpdate, cols: seq<Column>, fields: seq<string>, values: seq<Param>) {
    && |fields| == |cols|
    && |values| == |cols|
    && forall i :: 0 <= i < |cols| ==>
         Supplies(u, cols[i]) && fields[i] == Clause(cols[i], i + 1) && values[i] == SuppliedValue(u, cols[i])
  }

  /** `fields` and `values` are the clauses and values for exactly the columns `u` supplies. */
  ghost predicate SetClausesFor(u: StudentUpdate, fields: seq<string>, values: seq<Param>) {
    ClausesFor(u, SuppliedColumns(u), fields, values)
  }

  /** The placeholder number of `clause` if it reads `<c> = $<digits>`. */
  function PlaceholderOf(c: Column, clause: string): Option<nat> {
    var prefix := ClausePrefix(c);
    if prefix <= clause && |clause| > |prefix| && AllDigits(clause[|prefix|..])
    then Some(DigitsValue(clause[|prefix|..]))
    else None
  }

  /** Reading a clause of the form `<column> = $<n>`; anything else is `None`. */
  function ParseClause(clause: string): Option<(Column, nat)> {
    match PlaceholderOf(NameColumn, clause)
    case Some(n) => Some((NameColumn, n))
    case None =>
      match PlaceholderOf(AgeColumn, clause)
      case Some(n) => Some((AgeColumn, n))
      case None =>
        match PlaceholderOf(ClassColumn, clause)
        case Some(n) => Some((ClassColumn, n))
        case None => None
  }

  lemma ParseClauseOfClause(c: Column, n: nat)
    ensures ParseClause(Clause(c, n)) == Some((c, n))
  {
    var clause := Clause(c, n);
    assert clause[|ClausePrefix(c)|..] == ShowNat(n);
    DigitsValueOfShowNat(n);
    assert clause[0] == ClausePrefix(c)[0];
  }

  /** Assigning one parameter to one column; `None` when the parameter has the wrong type. */
  function Assign(row: Student, c: Column, p: Param): Option<Student> {
    match (c, p)
    case (NameColumn, TextParam(s)) => Some(row.(name := s))
    case (AgeColumn, IntParam(n)) => Some(row.(age := n))
    case (ClassColumn, TextParam(s)) => Some(row.(class_ := Some(s)))
    case _ => None
  }

  /**
   * The `SET` list run against one row, clause by clause; `None` when a clause is
   * malformed, names a missing parameter or gets a parameter of the wrong type.
   */
  function ApplySet(row: Student, clauses: seq<string>, params: seq<Param>): Option<Student>
    decreases |clauses|
  {
    if clauses == [] then Some(row)
    else
      match ParseClause(clauses[0])
      case None => None
      case Some((c, n)) =>
        if 1 <= n <= |params| then
          match Assign(row, c, params[n - 1])
          case None => None
          case Some(next) => ApplySet(next, clauses[1..], params)
        else None
  }


  /** `UPDATE students SET <setClauses> WHERE id = $<wherePlaceholder> RETURNING ...`. */
  datatype UpdateStatement = UpdateStatement(setClauses: seq<string>, wherePlaceholder: nat)

  /**
   * `stmt` and `params` are the statement built for updating row `id` with `u`: the clauses
   * and values for the supplied columns, then the id as the last parameter, which the
   * `WHERE` placeholder names.
   */
  ghost predicate BuiltFor(id: int, u: StudentUpdate, stmt: UpdateStatement, params: seq<Param>) {
    var k := |stmt.setClauses|;
    && |params| == k + 1
    && SetClausesFor(u, stmt.setClauses, params[..k])
    && params[k] == IntParam(id)
    && stmt.wherePlaceholder == k + 1
  }

  /** Appending the clause and value for one more supplied column keeps the numbering. */
  lemma ClausesForAppend(u: StudentUpdate, cols: seq<Column>, fields: seq<string>, values: seq<Param>, c: Column)
    requires ClausesFor(u, cols, fields, values) && Supplies(u, c)
    ensures ClausesFor(u, cols + [c], fields + [Clause(c, |values| + 1)], values + [SuppliedValue(u, c)])
  {
  }

  /** The `update_fields` / `values` lists of `update_student`, grown with `append`. */
  method BuildSetClauses(u: StudentUpdate) returns (updateFields: seq<string>, values: seq<Param>)
    ensures SetClausesFor(u, updateFields, values)
    ensures updateFields == [] <==> u.name.None? && u.age.None? && u.class_.None?
  {
    updateFields, values := [], [];
    ghost var cols: seq<Column> := [];
    if u.name.Some? {
      ClausesForAppend(u, cols, updateFields, values, NameColumn);
      updateFields := updateFields + ["name = $" + ShowNat(|values| + 1)];
      values := values + [TextParam(u.name.value)];
      cols := cols + [NameColumn];
    }
    if u.age.Some? {
      ClausesForAppend(u, cols, updateFields, values, AgeColumn);
      updateFields := updateFields + ["age = $" + ShowNat(|values| + 1)];
      values := values + [IntParam(u.age.value)];
      cols := cols + [AgeColumn];
    }
    if u.class_.Some? {
      ClausesForAppend(u, cols, updateFields, values, ClassColumn);
      updateFields := updateFields + ["class = $" + ShowNat(|values| + 1)];
      values := values + [TextParam(u.class_.value)];
      cols := cols + [ClassColumn];
    }
    assert cols == SuppliedColumns(u);
  }

  /**
   * The statement building of `update_student`: the `SET` list, `None` (the 400 answer)
   * when it is empty, and otherwise the id appended as the last parameter and named by
   * the `WHERE` placeholder `$(k+1)`.
   */
  method BuildUpdateStatement(id: int, u: StudentUpdate) returns (r: Option<(UpdateStatement, seq<Param>)>)
    ensures r.None? <==> u.name.None? && u.age.None? && u.class_.None?
    ensures r.Some? ==> BuiltFor(id, u, r.value.0, r.value.1)
  {
    var updateFields, values := BuildSetClauses(u);
    if updateFields == [] {
      return None;
    }
    ghost var setValues := values;
    values := values + [IntParam(id)];
    assert values[..|updateFields|] == setValues;
    r := Some((UpdateStatement(updateFields, |values|), values));
  }

  /** Running a statement: it fails, or it leaves a table and the rows `RETURNING` produced. */
  datatype Execution = Failed | Executed(rows: map<int, Student>, returning: seq<StudentResponse>)

  function Execute(rows: map<int, Student>, stmt: UpdateStatement, params: seq<Param>): Execution {
    var k := stmt.wherePlaceholder;
    if !(1 <= k <= |params|) || !params[k - 1].IntParam? || !IsInt4(params[k - 1].n) then Failed
    else
      var id := params[k - 1].n;
      if id !in rows then Executed(rows, [])
      else
        match ApplySet(rows[id], stmt.setClauses, params)
        case None => Failed
        case Some(updated) =>
          match StoreRow(updated)
          case None => Failed
          case Some(stored) => Executed(rows[id := stored], [Response(id, stored)])
  }

  /** The row a partial update should leave: each supplied field replaced, every other kept. */
  function Merged(row: Student, u: StudentUpdate): (r: Student)
    ensures u.name.None? && u.age.None? && u.class_.None? ==> r == row
    ensures r.class_.None? <==> row.class_.None? && u.class_.None?
  {
    Student(u.name.GetOr(row.name), u.age.GetOr(row.age), if u.class_.Some? then u.class_ else row.class_)
  }

  /** `row` with the columns in `cols` set to the payload's values. */
  function MergeColumns(row: Student, u: StudentUpdate, cols: seq<Column>): Student {
    Student(
      if NameColumn in cols then u.name.GetOr(row.name) else row.name,
      if AgeColumn in cols then u.age.GetOr(row.age) else row.age,
      if ClassColumn in cols then u.class_ else row.class_)
  }

  /** `row` with column `c` set to the payload's value for it. */
  function SetColumn(row: Student, u: StudentUpdate, c: Column): Student
    requires Supplies(u, c)
  {
    match c
    case NameColumn => row.(name := u.name.value)
    case AgeColumn => row.(age := u.age.value)
    case ClassColumn => row.(class_ := u.class_)
  }

  lemma MergeColumnsStep(row: Student, u: StudentUpdate, c: Column, rest: seq<Column>)
    requires Supplies(u, c) && c !in rest
    ensures MergeColumns(SetColumn(row, u, c), u, rest) == MergeColumns(row, u, [c] + rest)
  {
  }

  /** One step of `ApplySet`: a well-formed first clause whose parameter fits its column. */
  lemma ApplySetStep(row: Student, clauses: seq<string>, params: seq<Param>, c: Column, n: nat, next: Student)
    requires clauses != [] && ParseClause(clauses[0]) == Some((c, n))
    requires 1 <= n <= |params| && Assign(row, c, params[n - 1]) == Some(next)
    ensures ApplySet(row, clauses, params) == ApplySet(next, clauses[1..], params)
  {
  }

  /** Running the built clauses from the j-th on sets exactly the remaining columns. */
  lemma {:induction false} ApplyBuiltClauses(row: Student, u: StudentUpdate, cols: seq<Column>,
                                              fields: seq<string>, params: seq<Param>, j: nat)
    requires |fields| <= |params| && ClausesFor(u, cols, fields, params[..|fields|])
    requires forall i, l :: 0 <= i < l < |cols| ==> cols[i] != cols[l]
    requires j <= |fields|
    ensures ApplySet(row, fields[j..], params) == Some(MergeColumns(row, u, cols[j..]))
    decreases |fields| - j
  {
    if j == |fields| {
      assert fields[j..] == [];
      assert cols[j..] == [];
    } else {
      var c := cols[j];
      var next := SetColumn(row, u, c);
      var clauses := fields[j..];
      assert clauses[0] == Clause(c, j + 1);
      assert clauses[1..] == fields[j + 1..];
      ParseClauseOfClause(c, j + 1);
      assert params[j] == params[..|fields|][j] == SuppliedValue(u, c);
      assert Assign(row, c, params[j]) == Some(next);
      ApplySetStep(row, clauses, params, c, j + 1, next);
      ApplyBuiltClauses(next, u, cols, fields, params, j + 1);
      assert cols[j..] == [c] + cols[j + 1..];
      MergeColumnsStep(row, u, c, cols[j + 1..]);
    }
  }

  /** A statement whose `WHERE` parameter names an existing row runs its `SET` list on that row. */
  lemma ExecuteOnExistingRow(rows: map<int, Student>, id: int, stmt: UpdateStatement, params: seq<Param>, updated: Student)
    requires id in rows && IsInt4(id)
    requires 1 <= stmt.wherePlaceholder <= |params| && params[stmt.wherePlaceholder - 1] == IntParam(id)
    requires ApplySet(rows[id], stmt.setClauses, params) == Some(updated)
    ensures Execute(rows, stmt, params)
         == match StoreRow(updated)
            case None => Failed
            case Some(stored) => Executed(rows[id := stored], [Response(id, stored)])
  {
    var k := stmt.wherePlaceholder;
    assert params[k - 1].IntParam? && params[k - 1].n == id;
  }

  /**
   * The statement `update_student` builds changes exactly the supplied fields of row `id`
   * (or fails when the merged row does not fit the columns) and returns that row.
   */
  lemma BuiltStatementUpdatesSuppliedFields(rows: map<int, Student>, id: int, u: StudentUpdate,
                                            stmt: UpdateStatement, params: seq<Param>)
    requires id in rows && IsInt4(id)
    requires BuiltFor(id, u, stmt, params)
    ensures Execute(rows, stmt, params)
         == match StoreRow(Merged(rows[id], u))
            case None => Failed
            case Some(stored) => Executed(rows[id := stored], [Response(id, stored)])
  {
    var fields := stmt.setClauses;
    assert |fields| <= |params| && SetClausesFor(u, fields, params[..|fields|]);
    ApplyBuiltClauses(rows[id], u, SuppliedColumns(u), fields, params, 0);
    assert fields[0..] == fields;
    assert SuppliedColumns(u)[0..] == SuppliedColumns(u);
    assert MergeColumns(rows[id], u, SuppliedColumns(u)) == Merged(rows[id], u);
    ExecuteOnExistingRow(rows, id, stmt, params, Merged(rows[id], u));
  }
}

=== FILE: wrappers.dfy ===
/** The optional value used throughout the model: Python's `None` versus a present value. */
module Wrappers {

  datatype Option<+T> = None | Some(value: T) {

    /** The value, or `default` when there is none. */
    function GetOr(default: T): T {
      match this
      case Some(v) => v
      case None => default
    }
  }
}
